=== FILE: README.md ===
# jupysql snippet store, modelled in Dafny

This project models the snippet store of jupysql (`src/sql/store.py`). It covers:

- `SQLStore`: a mapping from snippet names to queries, kept in insertion order.
- `SQLQuery`: a query body plus the names of the snippets it uses (`with_`).
- The rendering of a query as a chain of common table expressions (CTEs).

The rendering takes the transitive dependencies of `with_`. It lists them dependency-first with repeats dropped. Each becomes one CTE, with its trailing semicolon removed.

Everything is an immutable value:

- The store is its keys in iteration order plus a map (`Snippets.Store`).
- An operation that mutates the Python object returns the new store.
- An operation that raises returns a `Failure` of an `Errors.Error`.
- `Errors.Message` gives the text the store's code puts into each exception. Any decoration added by the `modify_exceptions` decorator on `store` is not part of it.

The code has no cycle detection, so the resolution functions take a ghost ranking of names. Every declared dependency must rank strictly below the snippet that declares it (`Closure.Ranked`). This makes the dependency graph acyclic and gives the recursion its termination measure.

The results are stated against independent reference definitions:

- `Closure.Reaches`: the transitive edges of the dependency graph.
- `Closure.Closed`: everything a name reaches is stored.
- `Closure.DepFirst`: every name comes after its declared dependencies.
- `Closure.Reaching`: the names of a list that reach a given name.
- `Cte.EndsWithSemicolon`: the last non-blank character is `;`.
- `Text.Join`: `sep.join`.

Modules:

- `Outcomes`: `Result`, a value or an error.
- `Text`: Python whitespace, `rstrip`, `strip`, `join` and one-character `replace`.
- `Seqs`: flattening, and `list(dict.fromkeys(xs))`.
- `Errors`: error kinds and message text.
- `Snippets`: the store and the query.
- `Closure` and `ClosureLemmas`: dependency resolution.
- `Cte` and `CteLemmas`: semicolon removal and `SQLQuery.__str__`.
- `StoreLemmas`: how the mapping operations relate to each other.
- `Scenarios`, `ClosureScenarios` and `ErrorScenarios`: concrete stores with their exact results.

Where the code and the class docstring (lines 35-41) disagree, the model follows the code:

- The CTE templates (lines 125-131) write the alias bare, or in backticks when the dialect asks for them. The class docstring (lines 35-41) shows double-quoted aliases on separate lines, but the templates do not produce that.
- The caller's query follows the closing parenthesis of the last CTE with no separator. A chain `A -> B -> C` with bodies `b_a`, `b_b`, `b_c` therefore renders as `WITH C AS (b_c), B AS (b_b)b_a` (`Scenarios.ChainRendering`).

Behaviour worth noting:

- `infer_dependencies` returns matches in the order the SQL parser reports the tables, repeats included, not in the store's key order.
- `_get_dependencies` keeps each name at its first occurrence among the resolved dependencies of each key, in turn, followed by the keys (`ClosureLemmas.DependenciesFirstOrder`).
- A cyclic declaration makes `_get_dependencies_for_key` recurse until CPython's recursion limit, which raises `RecursionError`. Here a cycle is excluded by the ranking precondition, not detected.

## Model

| member | source | states |
|---|---|---|
| Snippets.Empty | src/sql/store.py:44-45 | a new store is well formed, holds nothing and iterates nothing |
| Snippets.Get | src/sql/store.py:50-61 | a lookup succeeds exactly when the key is stored, and yields its query. It fails with "No saved SQL" exactly on an empty store. Otherwise a failure names the missing key and carries the stored names in iteration order |
| Errors.UnknownIdentifierMessage | src/sql/store.py:53-60 | an unknown-identifier message either suggests one of the stored names ("Did you mean") or lists all of them, quoted, in iteration order |
| Errors.Message | src/sql/store.py:50-118 | the message of each error. "No saved SQL" on an empty store. The unknown-identifier message opens with the quoted key. A `KeyError` shows the `repr` of the key. The hyphen-in-name text is fixed. The self-dependency message starts with `Script name (` followed by the `repr` of the name. The hyphen-in-dependency message starts with `Using hyphens is not allowed. Please use ` followed by the underscored list. A blank snippet body gives CPython's `IndexError` text from line 153 |
| ErrorScenarios.UnknownListed | src/sql/store.py:53-60 | with no close match, looking up `z` in a store of `x` and `y` gives exactly `"z" is not a valid snippet identifier. Valid identifiers are "x", "y".` |
| ErrorScenarios.UnknownSuggested | src/sql/store.py:53-57 | when the matcher proposes `x` and then `y`, the message suggests `x` alone and drops `y` |
| ErrorScenarios.EmptyLookup | src/sql/store.py:51-52 | every lookup in an empty store fails with "No saved SQL" |
| Snippets.Set | src/sql/store.py:47-48 | assignment maps the key to the value. An existing key keeps its position and a new key goes last. Well-formedness is preserved |
| StoreLemmas.SetThenGet | src/sql/store.py:47-61 | after an assignment, a lookup of that key yields the new value and every other stored key yields its old value |
| Snippets.Delete | src/sql/store.py:70-71 | deletion succeeds exactly when the key is stored, and otherwise fails with a `KeyError` for that key. It removes that key alone from the map, leaves the other values unchanged and preserves well-formedness |
| StoreLemmas.DeleteUndoesInsert | src/sql/store.py:70-71 | deleting a freshly inserted name gives back the original store, including its iteration order |
| StoreLemmas.DeleteKeepsOrder | src/sql/store.py:70-71 | deleting the i-th name removes exactly that position and keeps the other names in order |
| ErrorScenarios.MissingKeyMessage | src/sql/store.py:70-71 | deleting an absent `k` raises a `KeyError` whose text is `'k'` |
| Snippets.Keys | src/sql/store.py:63-65 | on a well-formed store, iteration yields every stored name exactly once |
| Snippets.LenCountsKeys | src/sql/store.py:67-68 | `len` equals the number of names iteration yields |
| Snippets.NewQuery | src/sql/store.py:107-118 | a query is built exactly when no dependency name contains `-`, and keeps the body and names unchanged. Otherwise it fails with the hyphen error for that list |
| Errors.HyphenSuggestion | src/sql/store.py:116 | the suggested replacement list contains no `-` |
| ErrorScenarios.HyphenMessage | src/sql/store.py:112-118 | for `with_ = ["a-b", "c"]` the message proposes `a_b, c` |
| Snippets.StoreSnippet | src/sql/store.py:89-101 | checks run in order: hyphen in the name, then the name among its own dependencies, then a hyphen in a dependency. It succeeds exactly when all three pass. The new query is then found under the name, every other stored query is kept, the order is kept or extended at the end, and well-formedness is preserved |
| ErrorScenarios.StoreErrors | src/sql/store.py:91-99 | the hyphen check on the name wins over self-dependency, which wins over the dependency-name check |
| ErrorScenarios.ReprQuoteChoice | src/sql/store.py:98 | a name holding a single quote and no double quote is shown in double quotes |
| Snippets.Render | src/sql/store.py:73-75 | rendering builds, and does not store, the query with the given body and dependencies. It fails only on a hyphenated dependency name |
| Snippets.OtherKeysIn | src/sql/store.py:79-86 | the extracted tables that are stored names other than the excluded key, in extraction order |
| Snippets.InferDependencies | src/sql/store.py:77-87 | an empty query infers nothing. Otherwise the result is exactly the extracted tables that are stored names other than `key`, in extraction order with repeats |
| Text.RStrip | src/sql/store.py:152 | `rstrip` keeps the longest prefix that does not end in whitespace and removes only whitespace. It is empty exactly when the text is blank |
| Cte.RemoveTrailingSemicolon | src/sql/store.py:151-153 | when the last non-blank character is `;`, the result is the text before it, and only that one `;` and the whitespace after it go. Otherwise the text is returned unchanged |
| Scenarios.DoubledSemicolon | src/sql/store.py:151-153 | `q;;` becomes `q;` |
| Scenarios.SemicolonBeforeWhitespace | src/sql/store.py:151-153 | `q; \n` becomes `q` |
| Scenarios.NoSemicolonKept | src/sql/store.py:151-153 | `q \n` is kept whole, including its trailing whitespace |
| Seqs.Flatten | src/sql/store.py:180-182 | an element is in the flattened list exactly when it is in one of the lists |
| Seqs.FlattenConcat | src/sql/store.py:180-182 | flattening distributes over concatenation |
| Seqs.Dedup | src/sql/store.py:161 | `dict.fromkeys` leaves no repeats and keeps exactly the same elements |
| Seqs.DedupFirstOrder | src/sql/store.py:161 | the kept elements appear in the order of their first occurrences |
| Seqs.DedupOfDistinct | src/sql/store.py:161 | a list with no repeats is unchanged |
| Seqs.DedupSnoc | src/sql/store.py:161 | an appended element is kept exactly when it is new |
| Closure.DepsForKey | src/sql/store.py:173-177 | the resolution of a stored name holds only stored names, including all of its declared dependencies. Its failures are the store's lookup failures |
| Closure.Collect | src/sql/store.py:176 | resolving a list gives one resolution per name, and only for stored names |
| ClosureLemmas.CollectElements | src/sql/store.py:176 | resolving a list succeeds exactly when every name resolves, and holds each name's resolution at that name's position |
| ClosureLemmas.DepsForKeyMembers | src/sql/store.py:173-177 | a name's resolution holds exactly the names it reaches in the dependency graph |
| ClosureLemmas.DepsForKeySucceeds | src/sql/store.py:173-177 | resolving a name succeeds exactly when the name and everything it reaches are stored |
| ClosureLemmas.DepsForKeyDepFirst | src/sql/store.py:173-177 | in a name's resolution, each name's declared dependencies occur before it |
| Closure.Dependencies | src/sql/store.py:156-161 | the closure has no repeats and holds only stored names, including every requested name. It is empty exactly when nothing was requested. Its failures are lookup failures |
| ClosureLemmas.DependenciesSucceed | src/sql/store.py:156-161 | the closure is computed exactly when every requested name is closed in the store |
| ClosureLemmas.DependenciesMembers | src/sql/store.py:156-161 | the closure holds exactly the requested names and the names they reach |
| ClosureLemmas.DependenciesFirstOrder | src/sql/store.py:156-161 | the closure holds exactly the names listed by resolving each key in turn and then the keys, and orders them by first occurrence in that list |
| ClosureLemmas.DependenciesDepFirst | src/sql/store.py:156-161 | in the closure every name follows its declared dependencies, so each CTE is defined before it is used |
| Scenarios.ChainDependencies | src/sql/store.py:156-161 | for `A -> B -> C`, the closure of `B` is `C, B` |
| ClosureScenarios.DiamondDependencies | src/sql/store.py:156-161 | when `A` uses `B` and `C`, and both use `D`, the closure of `A` is `D, B, C, A`: `D` appears once, before both of its users |
| Closure.DependentsAmong | src/sql/store.py:164-170 | the reverse lookup yields only names from the list it scans, and succeeds only when all of them are stored. Its failures are lookup failures |
| Closure.Dependents | src/sql/store.py:164-170 | the dependents of a name are stored names taken from the iteration order |
| ClosureLemmas.DependentsAmongSpec | src/sql/store.py:164-170 | the reverse lookup over a list succeeds exactly when every listed name is closed. It then yields, in list order, exactly the names that reach the key |
| ClosureLemmas.DependentsSpec | src/sql/store.py:164-170 | on a well-formed store, the dependents are exactly the stored names, in iteration order, that reach the key. The lookup succeeds exactly when every stored name is closed |
| ClosureScenarios.DiamondDependents | src/sql/store.py:164-170 | in the diamond, the dependents of `D` are `B, C, A`, and `D` is not its own dependent |
| CteLemmas.BacktickTemplate | src/sql/store.py:125-131 | the backtick template's CTE is the plain template's CTE with only the alias wrapped in backticks. Everything after the alias is the same text |
| Cte.Items | src/sql/store.py:125-131 | the CTE list renders exactly when no snippet in it has a blank body. A blank body fails with the `IndexError` of semicolon removal, naming that snippet |
| CteLemmas.ItemsAreJoined | src/sql/store.py:126-131 | the template's "comma unless last" loop equals the items joined by `,` |
| Cte.ToSql | src/sql/store.py:120-148 | with no declared dependency the result is the stripped body. Otherwise it starts with `WITH` and ends with the caller's body verbatim. It fails only with a lookup failure or on a blank snippet body |
| CteLemmas.ToSqlSucceeds | src/sql/store.py:133-148 | rendering succeeds exactly when nothing is declared, or when every declared name is closed and no snippet of the closure has a blank body |
| CteLemmas.ToSqlShape | src/sql/store.py:120-148 | a successful rendering with dependencies is `WITH`, then one CTE per closure name joined by `,`, then the caller's body. The closure has no repeats, is dependency-first, and holds exactly the declared names and what they reach |
| Scenarios.ChainRendering | src/sql/store.py:125-148 | the chain renders as `WITH C AS (b_c), B AS (b_b)b_a` |
| Scenarios.ChainRenderingBackticks | src/sql/store.py:129-148 | with backticks, the chain renders as ``WITH `C` AS (b_c), `B` AS (b_b)b_a`` |
| Text.StripBlank | src/sql/store.py:142 | stripping leaves nothing exactly when the body is blank |
| Text.StripEnds | src/sql/store.py:142 | the stripped body neither starts nor ends with whitespace |
| Text.StripSlice | src/sql/store.py:142 | the stripped body is a contiguous piece of the body with only whitespace around it |

## Left out

- `store_snippet_as_sql` and `load_snippet_from_sql` (lines 185-228): file I/O and the snippets directory.
- The session-wide `store` instance (line 232): a module-level singleton. Here every operation takes the store explicitly.
- `difflib.get_close_matches`: its similarity measure is not modelled. The message takes the matcher as a function parameter (`Errors.Matcher`). `Errors.DrawsFrom` assumes only that it proposes candidates it was given.
- `ConnectionManager.current.is_use_backtick_template()` (line 134): the dialect's answer is the `backtick` parameter.
- `query_util.extract_tables_from_query`: its result is the `tables` parameter of `Snippets.InferDependencies`.
- Jinja's template engine: the two templates are written out as `Cte.Items` and `Cte.ToSql`.
- The `modify_exceptions` decorator on `store` (line 89): it comes from `ploomber_core` and is not modelled. Whatever it does to the three `store` errors is not part of `Errors.Message`.
- Exception classes: every failure is one `Errors.Error` value. `UsageError`, `KeyError` and `IndexError` are told apart by variant only.
- The back-reference from `SQLQuery` to its store: rendering takes the store as an argument.
- The `MutableMapping` mixin methods (`pop`, `update`, `get`, and so on) that Python derives from the five methods modelled here.
- Values other than `SQLQuery` assigned through `store[key] = value`: a map value is always a `Query`.
- `with_` given as an iterable other than a list: `_get_dependencies` would fail at `deps + keys`. Here `with_` is a sequence, and `None` is the empty sequence.
- Cyclic dependency declarations: the code recurses until Python's recursion limit and raises `RecursionError`. Here acyclicity of the whole store is a precondition (`Closure.Ranked`) of resolution and rendering. This holds even for a rendering that never reaches the cycle, such as a query with no dependencies, which the code renders without any lookup (lines 136-142).
- `Errors.Repr`: escapes backslash, the chosen quote, tab, newline and carriage return. Other non-printable characters, which Python writes as `\x..` or `\u....`, are kept as they are.
- `Text.IsSpace`: covers the characters `str.isspace` accepts. There is no Unicode normalisation.

=== FILE: closure.dfy ===
/** Dependency resolution over a store: `_get_dependencies_for_key`, `_get_dependencies`
    and `_get_dependents_for_key`. The code has no cycle detection, so every function here
    takes a ghost ranking of names under which each declared dependency ranks strictly
    below the snippet that declares it: the dependency graph is acyclic. */
module Closure {
  import opened Outcomes
  import opened Errors
  import opened Seqs
  import opened Snippets

  /** Every stored snippet's dependencies rank strictly below it. */
  ghost predicate Ranked(s: Store, rank: string -> nat) {
    forall k, d :: k in s.data && d in s.data[k].with_ ==> rank(d) < rank(k)
  }

  /** One more than the highest rank in `ds` (zero for no names): the termination
      measure of resolving a list of names. */
  ghost function Height(rank: string -> nat, ds: seq<string>): nat {
    if ds == [] then 0
    else
      var h := Height(rank, ds[1..]);
      if rank(ds[0]) + 1 > h then rank(ds[0]) + 1 else h
  }

  lemma {:induction false} HeightBelow(rank: string -> nat, ds: seq<string>, bound: nat)
    requires forall d :: d in ds ==> rank(d) < bound
    ensures Height(rank, ds) <= bound
  {
    if ds != [] {
      HeightBelow(rank, ds[1..], bound);
    }
  }

  /** The declared dependencies of a name; none for a name that is not stored. */
  function WithOf(s: Store, n: string): seq<string> {
    if n in s.data then s.data[n].with_ else []
  }

  /** Reference definition of the dependency graph's transitive edges: `to` is declared by
      `from` or, transitively, by one of `from`'s declared dependencies. */
  ghost predicate Reaches(s: Store, rank: string -> nat, from: string, to: string)
    requires Ranked(s, rank)
    decreases rank(from)
  {
    from in s.data && exists d :: d in s.data[from].with_ && (d == to || Reaches(s, rank, d, to))
  }

  /** `key` is stored and so is every name it reaches: resolving it cannot fail. */
  ghost predicate Closed(s: Store, rank: string -> nat, key: string)
    requires Ranked(s, rank)
  {
    key in s.data && forall n :: Reaches(s, rank, key, n) ==> n in s.data
  }

  /** Every name's declared dependencies occur before it: the order in which CTE aliases
      can be defined. */
  ghost predicate DepFirst(s: Store, xs: seq<string>) {
    forall p, d :: 0 <= p < |xs| && d in WithOf(s, xs[p]) ==> d in xs[..p]
  }

  /** The names among `ks`, in order, that reach `key`. */
  ghost function Reaching(s: Store, rank: string -> nat, key: string, ks: seq<string>): seq<string>
    requires Ranked(s, rank)
  {
    if ks == [] then []
    else (if Reaches(s, rank, ks[0], key) then [ks[0]] else []) + Reaching(s, rank, key, ks[1..])
  }

  /** `_get_dependencies_for_key(store, key)`: the dependencies of each declared dependency,
      in declaration order, followed by the declared dependencies themselves. Looking up a
      name that is not stored fails with the store's lookup error. */
  function DepsForKey(s: Store, ghost rank: string -> nat, key: string): (r: Result<seq<string>, Error>)
    requires Ranked(s, rank)
    ensures r.Success? ==> key in s.data && forall n :: n in r.value ==> n in s.data
    ensures r.Success? ==> forall d :: d in s.data[key].with_ ==> d in r.value
    ensures r.Failure? ==> IsLookupFailure(s, r.error)
    decreases rank(key), 1, 0
  {
    match Get(s, key)
    case Failure(e) => Failure(e)
    case Success(q) =>
      HeightBelow(rank, q.with_, rank(key));
      match Collect(s, rank, q.with_)
      case Failure(e) => Failure(e)
      case Success(lists) => Success(Flatten(lists) + q.with_)
  }

  /** `[_get_dependencies_for_key(store, d) for d in ds]`: resolved left to right, stopping
      at the first failure. */
  function Collect(s: Store, ghost rank: string -> nat, ds: seq<string>): (r: Result<seq<seq<string>>, Error>)
    requires Ranked(s, rank)
    ensures r.Success? ==> |r.value| == |ds|
    ensures r.Success? ==> forall d :: d in ds ==> d in s.data
    ensures r.Success? ==> forall i, n :: 0 <= i < |r.value| && n in r.value[i] ==> n in s.data
    ensures r.Failure? ==> IsLookupFailure(s, r.error)
    decreases Height(rank, ds), 0, |ds|
  {
    if ds == [] then Success([])
    else
      match DepsForKey(s, rank, ds[0])
      case Failure(e) => Failure(e)
      case Success(first) =>
        match Collect(s, rank, ds[1..])
        case Failure(e) => Failure(e)
        case Success(rest) =>
          assert forall i :: 0 < i < |ds| ==> ds[i] == ds[1..][i - 1];
          Success([first] + rest)
  }

  /** `_get_dependencies(store, keys)`: every key's dependencies, then the keys themselves,
      with repeats dropped after their first occurrence. */
  function Dependencies(s: Store, ghost rank: string -> nat, keys: seq<string>): (r: Result<seq<string>, Error>)
    requires Ranked(s, rank)
    ensures r.Success? ==> NoDups(r.value)
    ensures r.Success? ==> forall n :: n in r.value ==> n in s.data
    ensures r.Success? ==> forall k :: k in keys ==> k in r.value
    ensures r.Success? ==> (r.value == [] <==> keys == [])
    ensures r.Failure? ==> IsLookupFailure(s, r.error)
  {
    match Collect(s, rank, keys)
    case Failure(e) => Failure(e)
    case Success(lists) =>
      var all := Dedup(Flatten(lists) + keys);
      assert keys != [] ==> keys[0] in all;
      Success(all)
  }

  /** `_get_dependents_for_key(store, key)` restricted to the names `ks`: those whose
      dependencies include `key`, in the order of `ks`. */
  function DependentsAmong(s: Store, ghost rank: string -> nat, key: string, ks: seq<string>): (r: Result<seq<string>, Error>)
    requires Ranked(s, rank)
    ensures r.Success? ==> forall k :: k in r.value ==> k in ks
    ensures r.Success? ==> forall k :: k in ks ==> k in s.data
    ensures r.Failure? ==> IsLookupFailure(s, r.error)
  {
    if ks == [] then Success([])
    else
      match DepsForKey(s, rank, ks[0])
      case Failure(e) => Failure(e)
      case Success(deps) =>
        match DependentsAmong(s, rank, key, ks[1..])
        case Failure(e) => Failure(e)
        case Success(rest) => Success((if key in deps then [ks[0]] else []) + rest)
  }

  /** `_get_dependents_for_key(store, key)`: the stored names, in iteration order, whose
      dependencies include `key`. */
  function Dependents(s: Store, ghost rank: string -> nat, key: string): (r: Result<seq<string>, Error>)
    requires Ranked(s, rank)
    ensures r.Success? ==> forall k :: k in r.value ==> k in s.keys && k in s.data
    ensures r.Failure? ==> IsLookupFailure(s, r.error)
  {
    DependentsAmong(s, rank, key, s.keys)
  }
}

=== FILE: closure_lemmas.dfy ===
/** What dependency resolution computes, stated against the reference definitions
    `Reaches`, `Closed`, `DepFirst` and `Reaching`. */
module ClosureLemmas {
  import opened Outcomes
  import opened Seqs
  import opened Snippets
  import opened Closure

  /** Resolving a list of names succeeds exactly when each name resolves, and then holds
      each name's resolution in order. */
  lemma {:induction false} CollectElements(s: Store, rank: string -> nat, ds: seq<string>)
    requires Ranked(s, rank)
    ensures Collect(s, rank, ds).Success? <==> forall d :: d in ds ==> DepsForKey(s, rank, d).Success?
    ensures Collect(s, rank, ds).Success? ==>
      forall i :: 0 <= i < |ds| ==> DepsForKey(s, rank, ds[i]) == Success(Collect(s, rank, ds).value[i])
  {
    if ds != [] {
      CollectElements(s, rank, ds[1..]);
      assert forall d :: d in ds <==> d == ds[0] || d in ds[1..];
      var first := DepsForKey(s, rank, ds[0]);
      var rest := Collect(s, rank, ds[1..]);
      assert Collect(s, rank, ds).Success? <==> first.Success? && rest.Success?;
      if first.Success? && rest.Success? {
        var r := Collect(s, rank, ds).value;
        assert r == [first.value] + rest.value;
        forall i | 0 < i < |ds| ensures DepsForKey(s, rank, ds[i]) == Success(r[i]) {
          assert ds[i] == ds[1..][i - 1];
        }
      } else if first.Success? {
        var d :| d in ds[1..] && !DepsForKey(s, rank, d).Success?;
        assert d in ds;
      } else {
        assert ds[0] in ds;
      }
    }
  }

  /** A name's resolution holds exactly the names it reaches. */
  lemma {:induction false} DepsForKeyMembers(s: Store, rank: string -> nat, key: string)
    requires Ranked(s, rank)
    requires DepsForKey(s, rank, key).Success?
    ensures forall n :: n in DepsForKey(s, rank, key).value <==> Reaches(s, rank, key, n)
    decreases rank(key)
  {
    var q := s.data[key];
    CollectElements(s, rank, q.with_);
    var lists := Collect(s, rank, q.with_).value;
    var r := DepsForKey(s, rank, key).value;
    assert r == Flatten(lists) + q.with_;
    forall d | d in q.with_
      ensures forall n :: n in DepsForKey(s, rank, d).value <==> Reaches(s, rank, d, n)
    {
      DepsForKeyMembers(s, rank, d);
    }
    forall n ensures n in r <==> Reaches(s, rank, key, n) {
      if n in Flatten(lists) {
        var i :| 0 <= i < |lists| && n in lists[i];
        assert q.with_[i] in q.with_;
      }
      if Reaches(s, rank, key, n) {
        var d :| d in q.with_ && (d == n || Reaches(s, rank, d, n));
        if d != n {
          var i :| 0 <= i < |q.with_| && q.with_[i] == d;
          assert n in lists[i];
        }
      }
    }
  }

  /** Resolving a name fails exactly when it, or a name it reaches, is not stored. */
  lemma {:induction false} DepsForKeySucceeds(s: Store, rank: string -> nat, key: string)
    requires Ranked(s, rank)
    ensures DepsForKey(s, rank, key).Success? <==> Closed(s, rank, key)
    decreases rank(key)
  {
    if DepsForKey(s, rank, key).Success? {
      DepsForKeyMembers(s, rank, key);
    }
    if Closed(s, rank, key) {
      var q := s.data[key];
      forall d | d in q.with_ ensures DepsForKey(s, rank, d).Success? {
        assert Reaches(s, rank, key, d);
        forall n | Reaches(s, rank, d, n) ensures n in s.data {
          assert Reaches(s, rank, key, n);
        }
        DepsForKeySucceeds(s, rank, d);
      }
      CollectElements(s, rank, q.with_);
    }
  }

  lemma DepFirstPrefix(s: Store, xs: seq<string>, n: nat)
    requires DepFirst(s, xs) && n <= |xs|
    ensures DepFirst(s, xs[..n])
  {
    forall p | 0 <= p < n ensures xs[..n][..p] == xs[..p] {}
  }

  lemma DepFirstConcat(s: Store, a: seq<string>, b: seq<string>)
    requires DepFirst(s, a) && DepFirst(s, b)
    ensures DepFirst(s, a + b)
  {
    forall p, d | 0 <= p < |a + b| && d in WithOf(s, (a + b)[p]) ensures d in (a + b)[..p] {
      if p < |a| {
        assert (a + b)[..p] == a[..p];
      } else {
        assert (a + b)[p] == b[p - |a|];
        assert (a + b)[..p] == a + b[..p - |a|];
      }
    }
  }

  /** Appending names whose dependencies all occur in `a` keeps dependencies first. */
  lemma DepFirstAppend(s: Store, a: seq<string>, b: seq<string>)
    requires DepFirst(s, a)
    requires forall j, d :: 0 <= j < |b| && d in WithOf(s, b[j]) ==> d in a
    ensures DepFirst(s, a + b)
  {
    forall p, d | 0 <= p < |a + b| && d in WithOf(s, (a + b)[p]) ensures d in (a + b)[..p] {
      if p < |a| {
        assert (a + b)[..p] == a[..p];
      } else {
        assert (a + b)[p] == b[p - |a|];
        assert (a + b)[..p] == a + b[..p - |a|];
      }
    }
  }

  lemma {:induction false} DepFirstFlatten(s: Store, lists: seq<seq<string>>)
    requires forall i :: 0 <= i < |lists| ==> DepFirst(s, lists[i])
    ensures DepFirst(s, Flatten(lists))
  {
    if lists != [] {
      DepFirstFlatten(s, lists[1..]);
      DepFirstConcat(s, lists[0], Flatten(lists[1..]));
    }
  }

  /** Keeping only first occurrences keeps dependencies first. */
  lemma {:induction false} DedupDepFirst(s: Store, xs: seq<string>)
    requires DepFirst(s, xs)
    ensures DepFirst(s, Dedup(xs))
  {
    if xs != [] {
      var init := xs[..|xs| - 1];
      var x := xs[|xs| - 1];
      DepFirstPrefix(s, xs, |xs| - 1);
      DedupDepFirst(s, init);
      var r := Dedup(init);
      if x !in r {
        forall j, d | 0 <= j < |[x]| && d in WithOf(s, [x][j]) ensures d in r {
          assert xs[..|xs| - 1] == init;
        }
        DepFirstAppend(s, r, [x]);
      }
    }
  }

  /** A resolved name's dependencies come in an order where every name follows its own
      declared dependencies. */
  lemma {:induction false} DepsForKeyDepFirst(s: Store, rank: string -> nat, key: string)
    requires Ranked(s, rank)
    requires DepsForKey(s, rank, key).Success?
    ensures DepFirst(s, DepsForKey(s, rank, key).value)
    decreases rank(key)
  {
    var q := s.data[key];
    CollectElements(s, rank, q.with_);
    var lists := Collect(s, rank, q.with_).value;
    forall i | 0 <= i < |lists| ensures DepFirst(s, lists[i]) {
      assert q.with_[i] in q.with_;
      DepsForKeyDepFirst(s, rank, q.with_[i]);
    }
    DepFirstFlatten(s, lists);
    forall j, d | 0 <= j < |q.with_| && d in WithOf(s, q.with_[j]) ensures d in Flatten(lists) {
      assert d in lists[j];
    }
    DepFirstAppend(s, Flatten(lists), q.with_);
  }

  /** `_get_dependencies` succeeds exactly when every requested name is closed. */
  lemma DependenciesSucceed(s: Store, rank: string -> nat, keys: seq<string>)
    requires Ranked(s, rank)
    ensures Dependencies(s, rank, keys).Success? <==> forall k :: k in keys ==> Closed(s, rank, k)
  {
    CollectElements(s, rank, keys);
    forall k | k in keys { DepsForKeySucceeds(s, rank, k); }
  }

  /** `_get_dependencies` holds the requested names and exactly the names they reach. */
  lemma DependenciesMembers(s: Store, rank: string -> nat, keys: seq<string>)
    requires Ranked(s, rank)
    requires Dependencies(s, rank, keys).Success?
    ensures forall n :: n in Dependencies(s, rank, keys).value <==>
      n in keys || exists k :: k in keys && Reaches(s, rank, k, n)
  {
    CollectElements(s, rank, keys);
    var lists := Collect(s, rank, keys).value;
    forall k | k in keys ensures forall n :: n in DepsForKey(s, rank, k).value <==> Reaches(s, rank, k, n) {
      DepsForKeyMembers(s, rank, k);
    }
    forall n ensures n in Flatten(lists) <==> exists k :: k in keys && Reaches(s, rank, k, n) {
      if n in Flatten(lists) {
        var i :| 0 <= i < |lists| && n in lists[i];
        assert keys[i] in keys;
      }
      if exists k :: k in keys && Reaches(s, rank, k, n) {
        var k :| k in keys && Reaches(s, rank, k, n);
        var i :| 0 <= i < |keys| && keys[i] == k;
        assert n in lists[i];
      }
    }
  }

  /** In `_get_dependencies`, every name follows its declared dependencies. */
  lemma DependenciesDepFirst(s: Store, rank: string -> nat, keys: seq<string>)
    requires Ranked(s, rank)
    requires Dependencies(s, rank, keys).Success?
    ensures DepFirst(s, Dependencies(s, rank, keys).value)
  {
    CollectElements(s, rank, keys);
    var lists := Collect(s, rank, keys).value;
    forall i | 0 <= i < |lists| ensures DepFirst(s, lists[i]) {
      DepsForKeyDepFirst(s, rank, keys[i]);
    }
    DepFirstFlatten(s, lists);
    forall j, d | 0 <= j < |keys| && d in WithOf(s, keys[j]) ensures d in Flatten(lists) {
      assert d in lists[j];
    }
    DepFirstAppend(s, Flatten(lists), keys);
    DedupDepFirst(s, Flatten(lists) + keys);
  }

  /** `_get_dependencies` keeps first-occurrence order: of the names listed by resolving each
      key in turn and then the keys themselves, each is kept at its first occurrence, and
      the kept names are ordered by those occurrences. */
  lemma DependenciesFirstOrder(s: Store, rank: string -> nat, keys: seq<string>)
    requires Ranked(s, rank)
    requires Dependencies(s, rank, keys).Success?
    ensures var listed := Flatten(Collect(s, rank, keys).value) + keys;
      var all := Dependencies(s, rank, keys).value;
      && (forall n :: n in all <==> n in listed)
      && forall i, j :: 0 <= i < j < |all| ==> FirstIndex(listed, all[i]) < FirstIndex(listed, all[j])
  {
    DedupFirstOrder(Flatten(Collect(s, rank, keys).value) + keys);
  }

  /** The reverse lookup over `ks` succeeds exactly when every name of `ks` is closed, and
      then yields, in order, exactly the names of `ks` that reach `key`. */
  lemma {:induction false} DependentsAmongSpec(s: Store, rank: string -> nat, key: string, ks: seq<string>)
    requires Ranked(s, rank)
    ensures DependentsAmong(s, rank, key, ks).Success? <==> forall k :: k in ks ==> Closed(s, rank, k)
    ensures DependentsAmong(s, rank, key, ks).Success? ==>
      DependentsAmong(s, rank, key, ks).value == Reaching(s, rank, key, ks)
  {
    if ks != [] {
      DependentsAmongSpec(s, rank, key, ks[1..]);
      DepsForKeySucceeds(s, rank, ks[0]);
      if DepsForKey(s, rank, ks[0]).Success? {
        DepsForKeyMembers(s, rank, ks[0]);
      }
      assert forall k :: k in ks <==> k == ks[0] || k in ks[1..];
    }
  }

  /** `_get_dependents_for_key(store, key)` on a well-formed store: it succeeds exactly when
      every stored name is closed, and then lists, in iteration order, exactly the stored
      names that reach `key`. */
  lemma DependentsSpec(s: Store, rank: string -> nat, key: string)
    requires Ranked(s, rank) && Valid(s)
    ensures Dependents(s, rank, key).Success? <==> forall k :: k in s.data ==> Closed(s, rank, k)
    ensures Dependents(s, rank, key).Success? ==>
      Dependents(s, rank, key).value == Reaching(s, rank, key, s.keys)
  {
    DependentsAmongSpec(s, rank, key, s.keys);
  }
}

=== FILE: closure_scenarios.dfy ===
/** Concrete dependency graphs and the closures and dependents resolution computes. */
module ClosureScenarios {
  import opened Outcomes
  import opened Seqs
  import opened Snippets
  import opened Closure

  // One unfolding step of each recursive resolution function, for concrete stores.

  lemma CollectNil(s: Store, rank: string -> nat)
    requires Ranked(s, rank)
    ensures Collect(s, rank, []) == Success([])
  {
  }

  lemma CollectCons(s: Store, rank: string -> nat, ds: seq<string>, first: seq<string>, rest: seq<seq<string>>)
    requires Ranked(s, rank) && ds != []
    requires DepsForKey(s, rank, ds[0]) == Success(first)
    requires Collect(s, rank, ds[1..]) == Success(rest)
    ensures Collect(s, rank, ds) == Success([first] + rest)
  {
  }

  lemma DepsForKeyOf(s: Store, rank: string -> nat, key: string, lists: seq<seq<string>>)
    requires Ranked(s, rank) && key in s.data
    requires Collect(s, rank, s.data[key].with_) == Success(lists)
    ensures DepsForKey(s, rank, key) == Success(Flatten(lists) + s.data[key].with_)
  {
  }

  lemma DependentsCons(s: Store, rank: string -> nat, key: string, ks: seq<string>, deps: seq<string>, rest: seq<string>)
    requires Ranked(s, rank) && ks != []
    requires DepsForKey(s, rank, ks[0]) == Success(deps)
    requires DependentsAmong(s, rank, key, ks[1..]) == Success(rest)
    ensures DependentsAmong(s, rank, key, ks) == Success((if key in deps then [ks[0]] else []) + rest)
  {
  }

  /** `A` uses `B` and `C`, which both use `D`. */
  function Diamond(): Store {
    Store(["D", "B", "C", "A"],
      map["D" := Query("b_d", []), "B" := Query("b_b", ["D"]), "C" := Query("b_c", ["D"]), "A" := Query("b_a", ["B", "C"])])
  }

  function DiamondRank(n: string): nat {
    if n == "A" then 2 else if n == "B" || n == "C" then 1 else 0
  }

  lemma DiamondLeaf()
    ensures Ranked(Diamond(), DiamondRank)
    ensures DepsForKey(Diamond(), DiamondRank, "D") == Success([])
  {
    var s := Diamond();
    assert s.data["D"].with_ == [];
    CollectNil(s, DiamondRank);
    DepsForKeyOf(s, DiamondRank, "D", []);
    assert Flatten<string>([]) + [] == [];
  }

  lemma DiamondSide(n: string)
    requires n == "B" || n == "C"
    ensures Ranked(Diamond(), DiamondRank)
    ensures DepsForKey(Diamond(), DiamondRank, n) == Success(["D"])
  {
    DiamondLeaf();
    var s := Diamond();
    var none: seq<string> := [];
    var noLists: seq<seq<string>> := [];
    assert s.data[n].with_ == ["D"];
    CollectNil(s, DiamondRank);
    assert ["D"][1..] == [];
    CollectCons(s, DiamondRank, ["D"], none, noLists);
    assert [none] + noLists == [none];
    DepsForKeyOf(s, DiamondRank, n, [none]);
    assert Flatten([none]) + ["D"] == ["D"];
  }

  lemma DiamondSidesCollected()
    ensures Ranked(Diamond(), DiamondRank)
    ensures Collect(Diamond(), DiamondRank, ["B", "C"]) == Success([["D"], ["D"]])
  {
    DiamondSide("B");
    DiamondSide("C");
    var s := Diamond();
    var noLists: seq<seq<string>> := [];
    CollectNil(s, DiamondRank);
    assert ["C"][1..] == [];
    CollectCons(s, DiamondRank, ["C"], ["D"], noLists);
    assert [["D"]] + noLists == [["D"]];
    assert ["B", "C"][1..] == ["C"];
    CollectCons(s, DiamondRank, ["B", "C"], ["D"], [["D"]]);
    assert [["D"]] + [["D"]] == [["D"], ["D"]];
  }

  lemma DiamondTop()
    ensures Ranked(Diamond(), DiamondRank)
    ensures DepsForKey(Diamond(), DiamondRank, "A") == Success(["D", "D", "B", "C"])
  {
    DiamondSidesCollected();
    var s := Diamond();
    var noLists: seq<seq<string>> := [];
    assert s.data["A"].with_ == ["B", "C"];
    DepsForKeyOf(s, DiamondRank, "A", [["D"], ["D"]]);
    assert Flatten([["D"], ["D"]]) == ["D", "D"] by {
      assert [["D"], ["D"]][1..] == [["D"]];
      assert [["D"]][1..] == noLists;
    }
    assert ["D", "D"] + ["B", "C"] == ["D", "D", "B", "C"];
  }

  lemma DedupDiamondPrefix()
    ensures Dedup(["D", "D", "B"]) == ["D", "B"]
  {
    var none: seq<string> := [];
    assert Dedup(["D"]) == ["D"] by {
      DedupSnoc(none, "D");
      assert none + ["D"] == ["D"];
    }
    assert Dedup(["D", "D"]) == ["D"] by {
      DedupSnoc(["D"], "D");
      assert ["D"] + ["D"] == ["D", "D"];
    }
    DedupSnoc(["D", "D"], "B");
    assert ["D", "D"] + ["B"] == ["D", "D", "B"];
    assert "B" !in ["D", "D"];
  }

  lemma DedupDiamond()
    ensures Dedup(["D", "D", "B", "C", "A"]) == ["D", "B", "C", "A"]
  {
    DedupDiamondPrefix();
    assert Dedup(["D", "D", "B", "C"]) == ["D", "B", "C"] by {
      DedupSnoc(["D", "D", "B"], "C");
      assert ["D", "D", "B"] + ["C"] == ["D", "D", "B", "C"];
      assert "C" !in ["D", "D", "B"];
    }
    DedupSnoc(["D", "D", "B", "C"], "A");
    assert ["D", "D", "B", "C"] + ["A"] == ["D", "D", "B", "C", "A"];
    assert "A" !in ["D", "D", "B", "C"];
  }

  /** The closure of `A` lists the shared dependency `D` once, before both of its users. */
  lemma DiamondDependencies()
    ensures Ranked(Diamond(), DiamondRank)
    ensures Dependencies(Diamond(), DiamondRank, ["A"]) == Success(["D", "B", "C", "A"])
  {
    DiamondTop();
    var s := Diamond();
    var noLists: seq<seq<string>> := [];
    CollectNil(s, DiamondRank);
    assert ["A"][1..] == [];
    CollectCons(s, DiamondRank, ["A"], ["D", "D", "B", "C"], noLists);
    assert [["D", "D", "B", "C"]] + noLists == [["D", "D", "B", "C"]];
    assert Flatten([["D", "D", "B", "C"]]) + ["A"] == ["D", "D", "B", "C", "A"] by {
      assert [["D", "D", "B", "C"]][1..] == noLists;
    }
    DedupDiamond();
  }

  lemma DiamondDependentsTail()
    ensures Ranked(Diamond(), DiamondRank)
    ensures DependentsAmong(Diamond(), DiamondRank, "D", ["C", "A"]) == Success(["C", "A"])
  {
    DiamondSide("C");
    DiamondTop();
    var s := Diamond();
    var none: seq<string> := [];
    assert DependentsAmong(s, DiamondRank, "D", none) == Success(none);
    assert ["A"][1..] == none;
    DependentsCons(s, DiamondRank, "D", ["A"], ["D", "D", "B", "C"], none);
    assert "D" in ["D", "D", "B", "C"];
    assert ["A"] + none == ["A"];
    assert ["C", "A"][1..] == ["A"];
    DependentsCons(s, DiamondRank, "D", ["C", "A"], ["D"], ["A"]);
    assert "D" in ["D"];
    assert ["C"] + ["A"] == ["C", "A"];
  }

  lemma DiamondDependentsAbove()
    ensures Ranked(Diamond(), DiamondRank)
    ensures DependentsAmong(Diamond(), DiamondRank, "D", ["B", "C", "A"]) == Success(["B", "C", "A"])
  {
    DiamondSide("B");
    DiamondDependentsTail();
    assert ["B", "C", "A"][1..] == ["C", "A"];
    DependentsCons(Diamond(), DiamondRank, "D", ["B", "C", "A"], ["D"], ["C", "A"]);
    assert "D" in ["D"];
    assert ["B"] + ["C", "A"] == ["B", "C", "A"];
  }

  /** Every snippet above `D` depends on it; `D` itself is not its own dependent. */
  lemma DiamondDependents()
    ensures Ranked(Diamond(), DiamondRank)
    ensures Dependents(Diamond(), DiamondRank, "D") == Success(["B", "C", "A"])
  {
    DiamondLeaf();
    DiamondDependentsAbove();
    var none: seq<string> := [];
    assert ["D", "B", "C", "A"][1..] == ["B", "C", "A"];
    DependentsCons(Diamond(), DiamondRank, "D", ["D", "B", "C", "A"], none, ["B", "C", "A"]);
    assert none + ["B", "C", "A"] == ["B", "C", "A"];
  }
}

=== FILE: cte.dfy ===
/** Rendering a query as a chain of common table expressions: `_remove_trailing_semicolon`
    and `SQLQuery.__str__`. The dialect's "use backticks" answer is a parameter. */
module Cte {
  import opened Outcomes
  import opened Text
  import opened Errors
  import opened Seqs
  import opened Snippets
  import opened Closure

  /** The last character that is not whitespace is a `;`. */
  predicate EndsWithSemicolon(q: string) {
    exists i :: 0 <= i < |q| && q[i] == ';' && AllSpace(q[i + 1..])
  }

  /** `_remove_trailing_semicolon(q)`: drops the one `;` that ends the text (with the
      whitespace after it); any other text comes back untouched, trailing whitespace
      included. `query_[-1]` on the right-stripped text raises on a blank `q`, so a
      blank `q` is outside the domain. */
  function RemoveTrailingSemicolon(q: string): (r: string)
    requires !AllSpace(q)
    ensures EndsWithSemicolon(q) ==>
      |r| < |q| && r == q[..|r|] && q[|r|] == ';' && AllSpace(q[|r| + 1..])
    ensures !EndsWithSemicolon(q) ==> r == q
  {
    var t := RStrip(q);
    if t[|t| - 1] == ';' then
      assert q[|t| - 1] == t[|t| - 1];
      assert q[|t|..] == q[|t| - 1 + 1..];
      t[..|t| - 1]
    else
      assert !EndsWithSemicolon(q) by {
        assert q[|t| - 1] == t[|t| - 1];
        forall i | |t| <= i < |q| ensures IsSpace(q[i]) {
          assert q[|t|..][i - |t|] == q[i];
        }
        forall j | 0 < j < |t| ensures !AllSpace(q[j..]) {
          assert q[j..][|t| - 1 - j] == q[|t| - 1];
        }
      }
      q
  }

  /** The alias of a CTE: bare, or in backticks when the dialect asks for them. */
  function Alias(name: string, backtick: bool): string {
    if backtick then "`" + name + "`" else name
  }

  /** One CTE of the template: ` <alias> AS (<body without its trailing semicolon>)`. */
  function Item(s: Store, name: string, backtick: bool): string
    requires name in s.data && !AllSpace(s.data[name].body)
  {
    " " + Alias(name, backtick) + " AS (" + RemoveTrailingSemicolon(s.data[name].body) + ")"
  }

  /** The items of `names`, one per name, in order. */
  function ItemList(s: Store, names: seq<string>, backtick: bool): (r: seq<string>)
    requires forall n :: n in names ==> n in s.data && !AllSpace(s.data[n].body)
    ensures |r| == |names|
  {
    if names == [] then [] else [Item(s, names[0], backtick)] + ItemList(s, names[1..], backtick)
  }

  /** The template's loop: each item followed by `,` unless it is the last one. Rendering
      stops at the first blank body, where the semicolon removal raises. */
  function Items(s: Store, names: seq<string>, backtick: bool): (r: Result<string, Error>)
    requires forall n :: n in names ==> n in s.data
    ensures r.Success? <==> forall n :: n in names ==> !AllSpace(s.data[n].body)
    ensures r.Failure? ==> r.error.BlankSnippet? && r.error.name in names && AllSpace(s.data[r.error.name].body)
  {
    if names == [] then Success("")
    else if AllSpace(s.data[names[0]].body) then Failure(BlankSnippet(names[0]))
    else
      match Items(s, names[1..], backtick)
      case Failure(e) => Failure(e)
      case Success(rest) =>
        assert forall n :: n in names <==> n == names[0] || n in names[1..];
        Success(Item(s, names[0], backtick) + (if |names| > 1 then "," else "") + rest)
  }

  /** `str(query)`: with no dependencies, the body stripped; otherwise `WITH`, the CTE of
      every name of the dependency closure, and the body verbatim. Fails with the store's
      lookup error when a needed snippet is missing, or on a blank snippet body. */
  function ToSql(s: Store, ghost rank: string -> nat, q: Query, backtick: bool): (r: Result<string, Error>)
    requires Ranked(s, rank)
    ensures q.with_ == [] ==> r == Success(Strip(q.body))
    ensures r.Success? && q.with_ != [] ==>
      |r.value| >= 4 + |q.body| && r.value[..4] == "WITH" && r.value[|r.value| - |q.body|..] == q.body
    ensures r.Failure? ==> IsLookupFailure(s, r.error) || r.error.BlankSnippet?
  {
    match Dependencies(s, rank, q.with_)
    case Failure(e) => Failure(e)
    case Success(all) =>
      if |all| == 0 then Success(Strip(q.body))
      else
        match Items(s, all, backtick)
        case Failure(e) => Failure(e)
        case Success(items) =>
          var out := "WITH" + items + q.body;
          assert out[..4] == "WITH";
          assert out[|out| - |q.body|..] == q.body;
          Success(out)
  }
}

=== FILE: cte_lemmas.dfy ===
/** The rendered text against an independent description: `WITH`, the CTE items joined
    by commas, then the caller's query; and when rendering succeeds. */
module CteLemmas {
  import opened Outcomes
  import opened Text
  import opened Seqs
  import opened Snippets
  import opened Closure
  import opened ClosureLemmas
  import opened Cte

  /** The template's "comma unless last" loop is `",".join` of the items. */
  lemma {:induction false} ItemsAreJoined(s: Store, names: seq<string>, backtick: bool)
    requires forall n :: n in names ==> n in s.data && !AllSpace(s.data[n].body)
    ensures Items(s, names, backtick) == Success(Join(",", ItemList(s, names, backtick)))
  {
    if names != [] {
      assert forall n :: n in names[1..] ==> n in names;
      ItemsAreJoined(s, names[1..], backtick);
      var first := Item(s, names[0], backtick);
      var rest := ItemList(s, names[1..], backtick);
      assert ItemList(s, names, backtick) == [first] + rest;
      assert ([first] + rest)[1..] == rest;
      if |names| == 1 {
        assert first + "" + "" == first;
      } else {
        assert Join(",", [first] + rest) == first + "," + Join(",", rest);
      }
    }
  }

  /** Rendering succeeds exactly when the query declares no dependency, or when every
      declared dependency is closed in the store and no snippet of the closure has a
      blank body. */
  lemma ToSqlSucceeds(s: Store, rank: string -> nat, q: Query, backtick: bool)
    requires Ranked(s, rank)
    ensures ToSql(s, rank, q, backtick).Success? <==>
      || q.with_ == []
      || (&& Dependencies(s, rank, q.with_).Success?
          && forall n :: n in Dependencies(s, rank, q.with_).value ==> !AllSpace(s.data[n].body))
    ensures Dependencies(s, rank, q.with_).Success? <==> forall k :: k in q.with_ ==> Closed(s, rank, k)
  {
    DependenciesSucceed(s, rank, q.with_);
  }

  /** A query with dependencies renders as `WITH`, one CTE per name of the closure joined
      by commas, and the caller's query verbatim; the closure names each snippet once, after
      its own dependencies, and holds exactly the declared names and what they reach. */
  lemma ToSqlShape(s: Store, rank: string -> nat, q: Query, backtick: bool)
    requires Ranked(s, rank)
    ensures q.with_ != [] && ToSql(s, rank, q, backtick).Success? ==>
      var all := Dependencies(s, rank, q.with_).value;
      && NoDups(all)
      && DepFirst(s, all)
      && (forall n :: n in all <==> n in q.with_ || exists k :: k in q.with_ && Reaches(s, rank, k, n))
      && ToSql(s, rank, q, backtick).value == "WITH" + Join(",", ItemList(s, all, backtick)) + q.body
  {
    if q.with_ != [] && ToSql(s, rank, q, backtick).Success? {
      var all := Dependencies(s, rank, q.with_).value;
      DependenciesMembers(s, rank, q.with_);
      DependenciesDepFirst(s, rank, q.with_);
      ItemsAreJoined(s, all, backtick);
    }
  }

  /** Rendering from a known closure and known items. */
  lemma ToSqlFrom(s: Store, rank: string -> nat, q: Query, backtick: bool, all: seq<string>, items: string)
    requires Ranked(s, rank)
    ensures Dependencies(s, rank, q.with_) == Success(all) && all != [] && Items(s, all, backtick) == Success(items) ==>
      ToSql(s, rank, q, backtick) == Success("WITH" + items + q.body)
  {
  }

  /** The backtick template differs from the plain one only in the quoting of the alias:
      everything after the bare alias is the same text. */
  lemma BacktickTemplate(s: Store, name: string)
    requires name in s.data && !AllSpace(s.data[name].body)
    ensures Item(s, name, true) == " `" + name + "`" + Item(s, name, false)[1 + |name|..]
  {
    var tail := " AS (" + RemoveTrailingSemicolon(s.data[name].body) + ")";
    assert Item(s, name, false) == " " + name + tail;
    assert (" " + name + tail)[1 + |name|..] == tail;
    assert Item(s, name, true) == " `" + name + "`" + tail;
  }
}

=== FILE: error_scenarios.dfy ===
/** Concrete failures of the store and the exact messages they carry. */
module ErrorScenarios {
  import opened Outcomes
  import opened Text
  import opened Errors
  import opened Snippets

  /** A hyphenated dependency list is answered with the underscored list. */
  lemma HyphenMessage(matcher: Matcher)
    ensures Message(HyphenInWith(["a-b", "c"]), matcher)
      == "Using hyphens is not allowed. Please use " + "a_b, c" + " instead for the with argument."
  {
    HyphenSuggested();
  }

  lemma HyphenSuggested()
    ensures HyphenSuggestion(["a-b", "c"]) == "a_b, c"
  {
    assert Join(", ", ["a-b", "c"]) == "a-b, c" by {
      assert ["a-b", "c"][1..] == ["c"];
    }
    var r := ReplaceChar("a-b, c", '-', '_');
    assert forall i :: 0 <= i < 6 ==> r[i] == "a_b, c"[i];
  }

  /** `del store["k"]` on a store without `k` reports the key's `repr`. */
  lemma MissingKeyMessage(matcher: Matcher)
    ensures Message(MissingKey("k"), matcher) == "'k'"
  {
    assert "k"[1..] == [];
    assert Escape("k", '\'') == "k";
  }

  /** A name holding a single quote and no double quote is shown in double quotes. */
  lemma ReprQuoteChoice()
    ensures Repr("a'b") == "\"a'b\""
  {
    assert "a'b"[1] == '\'';
    assert '"' !in "a'b";
    assert "a'b"[1..] == "'b" && "'b"[1..] == "b" && "b"[1..] == [];
    assert Escape("a'b", '"') == "a'b";
  }

  /** `store` checks the name first, then self-dependency, then the dependency names. */
  lemma StoreErrors(s: Store)
    ensures StoreSnippet(s, "a-b", "x", ["a-b"]) == Failure(HyphenInKey)
    ensures StoreSnippet(s, "k", "x", ["k-1", "k"]) == Failure(SelfDependency("k"))
    ensures StoreSnippet(s, "k", "x", ["j", "k"]) == Failure(SelfDependency("k"))
    ensures StoreSnippet(s, "k", "x", ["a-b"]) == Failure(HyphenInWith(["a-b"]))
  {
    assert "a-b"[1] == '-';
    assert ["j", "k"][1] == "k" && ["k-1", "k"][1] == "k";
    assert "k" != "a-b";
    assert "a-b" in ["a-b"];
  }

  /** `y` uses `x`. */
  function TwoSnippets(): Store {
    Store(["x", "y"], map["x" := Query("1", []), "y" := Query("2", ["x"])])
  }

  /** Without a close match the message lists every stored name, quoted, in order. */
  lemma UnknownListed()
    ensures Get(TwoSnippets(), "z") == Failure(UnknownIdentifier("z", ["x", "y"]))
    ensures Message(Get(TwoSnippets(), "z").error, (w, c) => [])
      == "\"z\"" + " is not a valid snippet identifier." + " Valid identifiers are " + "\"x\", \"y\"" + "."
  {
    assert "z" !in TwoSnippets().data;
    assert |TwoSnippets().data| > 0 by { assert "x" in TwoSnippets().data; }
    assert Quoted("z") == "\"z\"";
    ListedNames();
  }

  lemma ListedNames()
    ensures Join(", ", QuoteAll(["x", "y"])) == "\"x\", \"y\""
  {
    assert Quoted("x") == "\"x\"" && Quoted("y") == "\"y\"";
    assert QuoteAll(["x", "y"]) == ["\"x\"", "\"y\""];
    assert ["\"x\"", "\"y\""][1..] == ["\"y\""];
  }

  /** With two close matches the message names only the best one; the second is dropped. */
  lemma UnknownSuggested()
    ensures Message(Get(TwoSnippets(), "xx").error, (w, c) => ["x", "y"])
      == "\"xx\"" + " is not a valid snippet identifier." + " Did you mean " + "\"x\"" + "?"
  {
    assert "xx" !in TwoSnippets().data;
    assert |TwoSnippets().data| > 0 by { assert "x" in TwoSnippets().data; }
    assert Quoted("xx") == "\"xx\"" && Quoted("x") == "\"x\"";
  }

  /** Every lookup in an empty store fails the same way, whatever the key. */
  lemma EmptyLookup(key: string)
    ensures Get(Empty(), key) == Failure(NoSavedSql)
    ensures Message(Get(Empty(), key).error, (w, c) => []) == "No saved SQL"
  {
  }
}

=== FILE: errors.dfy ===
/** The errors the snippet store raises, and the exact text of each message. */
module Errors {
  import opened Text

  /** One variant per distinct failure of the store. */
  datatype Error =
    /** A lookup on a store that holds no snippet. */
    | NoSavedSql
    /** A lookup of `key` that is absent; `valid` are the stored names in iteration order. */
    | UnknownIdentifier(key: string, valid: seq<string>)
    /** `del store[key]` for an absent `key` (Python's `KeyError`). */
    | MissingKey(key: string)
    /** `store` was given a snippet name containing `-`. */
    | HyphenInKey
    /** `store` was given a dependency list that names the snippet itself. */
    | SelfDependency(key: string)
    /** A query was built with a dependency name containing `-`. */
    | HyphenInWith(with_: seq<string>)
    /** Rendering reached the blank body of snippet `name` (an `IndexError` of the
        trailing-semicolon removal). */
    | BlankSnippet(name: string)

  /** `difflib.get_close_matches(word, candidates)`: the candidates it considers close
      to `word`, best first. The similarity measure itself is not part of this model. */
  type Matcher = (string, seq<string>) -> seq<string>

  /** The matcher only ever proposes candidates it was given, as `get_close_matches` does. */
  ghost predicate DrawsFrom(matcher: Matcher) {
    forall word, candidates, i :: 0 <= i < |matcher(word, candidates)| ==> matcher(word, candidates)[i] in candidates
  }

  /** `f'"{x}"'`. */
  function Quoted(x: string): string {
    "\"" + x + "\""
  }

  function QuoteAll(xs: seq<string>): (r: seq<string>)
    ensures |r| == |xs|
    ensures forall i :: 0 <= i < |xs| ==> r[i] == Quoted(xs[i])
  {
    if xs == [] then [] else [Quoted(xs[0])] + QuoteAll(xs[1..])
  }

  /** Python's `repr` of a string: single quotes unless the text holds a single quote and
      no double quote; backslash, the chosen quote, tab, newline and carriage return escaped. */
  function Repr(x: string): string {
    var quote := if '\'' in x && '"' !in x then '"' else '\'';
    [quote] + Escape(x, quote) + [quote]
  }

  function Escape(x: string, quote: char): string {
    if x == [] then []
    else
      var c := x[0];
      var e := if c == '\\' then "\\\\"
               else if c == quote then ['\\', c]
               else if c == '\t' then "\\t"
               else if c == '\n' then "\\n"
               else if c == '\r' then "\\r"
               else [c];
      e + Escape(x[1..], quote)
  }

  /** The head of every unknown-identifier message. */
  function UnknownPrefix(key: string): string {
    Quoted(key) + " is not a valid snippet identifier."
  }

  /** The dependency list a hyphen error proposes instead: the names joined by `, `
      with every `-` turned into `_`. */
  function HyphenSuggestion(with_: seq<string>): (r: string)
    ensures '-' !in r
  {
    ReplaceChar(Join(", ", with_), '-', '_')
  }

  const NoSavedSqlText: string := "No saved SQL"
  const HyphenInKeyText: string := "Using hyphens (-) in save argument isn't allowed. Please use underscores (_) instead"
  /** CPython's message for indexing an empty string. */
  const IndexErrorText: string := "string index out of range"

  lemma PrefixOfConcat(a: string, b: string)
    ensures a <= a + b
  {
    assert (a + b)[..|a|] == a;
  }

  lemma PrefixOfConcat3(a: string, b: string, c: string, d: string)
    ensures a <= a + b + c + d
  {
    assert (a + b + c + d)[..|a|] == a;
  }

  /** The message the store's exception carries. The errors without a payload have a fixed
      text. The unknown-identifier message starts with the quoted key, and the `KeyError` text
      is the key's `repr` alone. The self-dependency message starts with `Script name (` and
      the name's `repr`; the hyphen-in-dependency message starts with its fixed head and the
      dependency list joined and with `-` turned into `_`. */
  function Message(e: Error, matcher: Matcher): (r: string)
    ensures e.NoSavedSql? ==> r == NoSavedSqlText
    ensures e.UnknownIdentifier? ==> UnknownPrefix(e.key) <= r
    ensures e.MissingKey? ==> r == Repr(e.key)
    ensures e.HyphenInKey? ==> r == HyphenInKeyText
    ensures e.SelfDependency? ==> "Script name (" + Repr(e.key) <= r
    ensures e.HyphenInWith? ==> "Using hyphens is not allowed. Please use " + HyphenSuggestion(e.with_) <= r
    ensures e.BlankSnippet? ==> r == IndexErrorText
  {
    match e
    case NoSavedSql => NoSavedSqlText
    case UnknownIdentifier(key, valid) =>
      var matches := matcher(key, valid);
      var head := UnknownPrefix(key);
      if |matches| > 0 then
        PrefixOfConcat3(head, " Did you mean ", Quoted(matches[0]), "?");
        head + " Did you mean " + Quoted(matches[0]) + "?"
      else
        PrefixOfConcat3(head, " Valid identifiers are ", Join(", ", QuoteAll(valid)), ".");
        head + " Valid identifiers are " + Join(", ", QuoteAll(valid)) + "."
    case MissingKey(key) => Repr(key)
    case HyphenInKey => HyphenInKeyText
    case SelfDependency(key) =>
      var head := "Script name (" + Repr(key);
      PrefixOfConcat(head, ") cannot appear in with_ argument");
      head + ") cannot appear in with_ argument"
    case HyphenInWith(with_) =>
      var head := "Using hyphens is not allowed. Please use " + HyphenSuggestion(with_);
      PrefixOfConcat(head, " instead for the with argument.");
      head + " instead for the with argument."
    case BlankSnippet(_) => IndexErrorText
  }

  /** An unknown identifier is reported either with a suggestion that names one of the
      valid identifiers, or with the full list of valid identifiers in order. */
  lemma UnknownIdentifierMessage(key: string, valid: seq<string>, matcher: Matcher)
    requires DrawsFrom(matcher)
    ensures var m := Message(UnknownIdentifier(key, valid), matcher);
      || (exists v :: v in valid && m == UnknownPrefix(key) + " Did you mean " + Quoted(v) + "?")
      || m == UnknownPrefix(key) + " Valid identifiers are " + Join(", ", QuoteAll(valid)) + "."
  {
    var matches := matcher(key, valid);
    if |matches| > 0 {
      assert matches[0] in valid;
    }
  }
}

=== FILE: outcomes.dfy ===
/** Failure-carrying return values: the model's stand-in for Python exceptions. */
module Outcomes {

  /** Either the value an operation returns or the error it raises. */
  datatype Result<+T, +E> = Success(value: T) | Failure(error: E)
}

=== FILE: scenarios.dfy ===
/** Concrete stores and the exact results the operations give on them. */
module Scenarios {
  import opened Outcomes
  import opened Errors
  import opened Seqs
  import opened Snippets
  import opened Closure
  import opened Cte
  import CteLemmas

  /** `A` uses `B`, which uses `C`. */
  function Chain(): Store {
    Store(["C", "B", "A"], map["C" := Query("b_c", []), "B" := Query("b_b", ["C"]), "A" := Query("b_a", ["B"])])
  }

  function ChainRank(n: string): nat {
    if n == "A" then 2 else if n == "B" then 1 else 0
  }

  lemma ChainIsRanked()
    ensures Ranked(Chain(), ChainRank)
    ensures |Chain().data| == 3
  {
    assert Chain().data.Keys == {"A", "B", "C"};
  }

  lemma ChainLeaf()
    ensures Ranked(Chain(), ChainRank)
    ensures Collect(Chain(), ChainRank, ["C"]) == Success([[]])
  {
    ChainIsRanked();
    var s := Chain();
    assert Get(s, "C") == Success(Query("b_c", []));
    assert Collect(s, ChainRank, []) == Success([]);
    assert Flatten<string>([]) + [] == [];
    assert DepsForKey(s, ChainRank, "C") == Success([]);
    assert ["C"][1..] == [];
    var none: seq<string> := [];
    var noLists: seq<seq<string>> := [];
    assert [none] + noLists == [none];
  }

  lemma ChainMiddle()
    ensures Ranked(Chain(), ChainRank)
    ensures Collect(Chain(), ChainRank, ["B"]) == Success([["C"]])
  {
    ChainLeaf();
    var s := Chain();
    assert Get(s, "B") == Success(Query("b_b", ["C"]));
    assert Flatten<string>([[]]) + ["C"] == ["C"];
    assert DepsForKey(s, ChainRank, "B") == Success(["C"]);
    assert ["B"][1..] == [];
    var noLists: seq<seq<string>> := [];
    assert Collect(s, ChainRank, []) == Success(noLists);
    assert [["C"]] + noLists == [["C"]];
  }

  /** The closure of `B` is `C` then `B`: the deepest dependency first, each name once. */
  lemma ChainDependencies()
    ensures Ranked(Chain(), ChainRank)
    ensures Dependencies(Chain(), ChainRank, ["B"]) == Success(["C", "B"])
  {
    ChainMiddle();
    assert Flatten([["C"]]) + ["B"] == ["C", "B"];
    assert Dedup(["C", "B"]) == ["C", "B"] by {
      assert NoDups(["C", "B"]);
      DedupOfDistinct(["C", "B"]);
    }
  }

  /** A body that does not end in `;` is kept as it is. */
  lemma PlainBodiesKept()
    ensures !Text.AllSpace("b_c") && RemoveTrailingSemicolon("b_c") == "b_c"
    ensures !Text.AllSpace("b_b") && RemoveTrailingSemicolon("b_b") == "b_b"
  {
    assert "b_c"[0] == 'b' && "b_b"[0] == 'b';
    assert "b_c"[2] == 'c' && "b_b"[2] == 'b';
    assert Text.RStrip("b_c") == "b_c";
    assert Text.RStrip("b_b") == "b_b";
  }

  lemma ChainItems(backtick: bool)
    ensures forall n :: n in ["C", "B"] ==> n in Chain().data && !Text.AllSpace(Chain().data[n].body)
    ensures Items(Chain(), ["C", "B"], backtick) == Success(Item(Chain(), "C", backtick) + "," + Item(Chain(), "B", backtick))
  {
    PlainBodiesKept();
    var s := Chain();
    assert ["C", "B"][1..] == ["B"];
    assert ["B"][1..] == [];
    assert s.data["B"].body == "b_b" && s.data["C"].body == "b_c";
    var itemB := Item(s, "B", backtick);
    assert Items(s, [], backtick) == Success("");
    assert itemB + "" + "" == itemB;
    assert Items(s, ["B"], backtick) == Success(itemB);
  }

  /** Each item of the chain is its alias and its unchanged body. */
  lemma ChainItem(name: string, body: string, backtick: bool)
    requires (name == "C" && body == "b_c") || (name == "B" && body == "b_b")
    ensures name in Chain().data && !Text.AllSpace(Chain().data[name].body)
    ensures Item(Chain(), name, backtick) == " " + Alias(name, backtick) + " AS (" + body + ")"
  {
    PlainBodiesKept();
    assert Chain().data[name].body == body;
  }

  lemma ChainRenderingSteps(backtick: bool)
    ensures Ranked(Chain(), ChainRank)
    ensures forall n :: n in ["C", "B"] ==> n in Chain().data && !Text.AllSpace(Chain().data[n].body)
    ensures ToSql(Chain(), ChainRank, Query("b_a", ["B"]), backtick)
      == Success("WITH" + (Item(Chain(), "C", backtick) + "," + Item(Chain(), "B", backtick)) + "b_a")
  {
    ChainDependencies();
    ChainItems(backtick);
    var items := Item(Chain(), "C", backtick) + "," + Item(Chain(), "B", backtick);
    CteLemmas.ToSqlFrom(Chain(), ChainRank, Query("b_a", ["B"]), backtick, ["C", "B"], items);
  }

  /** Rendering `b_a` over `B` defines `C` then `B` with bare aliases, and the caller's
      query follows the last parenthesis directly. */
  lemma ChainRendering()
    ensures Ranked(Chain(), ChainRank)
    ensures ToSql(Chain(), ChainRank, Query("b_a", ["B"]), false) == Success("WITH C AS (b_c), B AS (b_b)b_a")
  {
    ChainRenderingSteps(false);
    ChainItem("C", "b_c", false);
    ChainItem("B", "b_b", false);
    BareText();
  }

  lemma BareText()
    ensures "WITH" + ((" " + "C" + " AS (" + "b_c" + ")") + "," + (" " + "B" + " AS (" + "b_b" + ")")) + "b_a"
      == "WITH C AS (b_c), B AS (b_b)b_a"
  {
  }

  /** The same rendering when the dialect asks for backtick-quoted aliases. */
  lemma ChainRenderingBackticks()
    ensures Ranked(Chain(), ChainRank)
    ensures ToSql(Chain(), ChainRank, Query("b_a", ["B"]), true) == Success("WITH `C` AS (b_c), `B` AS (b_b)b_a")
  {
    ChainRenderingSteps(true);
    ChainItem("C", "b_c", true);
    ChainItem("B", "b_b", true);
    BacktickText();
  }

  lemma BacktickText()
    ensures "WITH" + ((" " + ("`" + "C" + "`") + " AS (" + "b_c" + ")") + "," + (" " + ("`" + "B" + "`") + " AS (" + "b_b" + ")")) + "b_a"
      == "WITH `C` AS (b_c), `B` AS (b_b)b_a"
  {
  }

  /** Of a doubled semicolon only the last one goes. */
  lemma DoubledSemicolon()
    ensures !Text.AllSpace("q;;") && RemoveTrailingSemicolon("q;;") == "q;"
  {
    assert "q;;"[0] == 'q';
    assert Text.RStrip("q;;") == "q;;";
  }

  /** Whitespace after the final semicolon goes with it. */
  lemma SemicolonBeforeWhitespace()
    ensures !Text.AllSpace("q; \n") && RemoveTrailingSemicolon("q; \n") == "q"
  {
    assert "q; \n"[0] == 'q';
    assert "q; \n"[..3] == "q; " && "q; "[..2] == "q;";
    assert Text.RStrip("q; \n") == "q;";
    assert "q;"[..1] == "q";
  }

  /** Without a final semicolon the text is kept whole, trailing whitespace included. */
  lemma NoSemicolonKept()
    ensures !Text.AllSpace("q \n") && RemoveTrailingSemicolon("q \n") == "q \n"
  {
    assert "q \n"[0] == 'q';
    assert "q \n"[..2] == "q " && "q "[..1] == "q";
    assert Text.RStrip("q \n") == "q";
  }
}

=== FILE: seqs.dfy ===
/** Sequence helpers with Python's list meaning: flattening a list of lists and
    `list(dict.fromkeys(xs))`, the order-preserving removal of duplicates. */
module Seqs {

  /** No element occurs twice. */
  predicate NoDups<T(==)>(xs: seq<T>) {
    forall i, j :: 0 <= i < j < |xs| ==> xs[i] != xs[j]
  }

  /** `[x for sub in xss for x in sub]`: the lists concatenated left to right. */
  function Flatten<T(!new)>(xss: seq<seq<T>>): (r: seq<T>)
    ensures forall x :: x in r <==> exists i :: 0 <= i < |xss| && x in xss[i]
  {
    if xss == [] then []
    else
      var r := xss[0] + Flatten(xss[1..]);
      assert forall i :: 0 < i < |xss| ==> xss[i] == xss[1..][i - 1];
      r
  }

  lemma {:induction false} FlattenConcat<T(!new)>(a: seq<seq<T>>, b: seq<seq<T>>)
    ensures Flatten(a + b) == Flatten(a) + Flatten(b)
  {
    if a == [] {
      assert a + b == b;
    } else {
      assert (a + b)[1..] == a[1..] + b;
      FlattenConcat(a[1..], b);
    }
  }

  /** The position of the first occurrence of `x` in `xs`. */
  function FirstIndex<T(==)>(xs: seq<T>, x: T): (i: nat)
    requires x in xs
    ensures i < |xs| && xs[i] == x && x !in xs[..i]
  {
    if xs[0] == x then 0
    else
      var i := 1 + FirstIndex(xs[1..], x);
      assert xs[..i] == [xs[0]] + xs[1..][..i - 1];
      i
  }

  /** `list(dict.fromkeys(xs))`: each element inserted in turn, skipped when it is
      already present, so every element is kept at its first occurrence. */
  function Dedup<T(==,!new)>(xs: seq<T>): (r: seq<T>)
    ensures NoDups(r)
    ensures forall x :: x in r <==> x in xs
    ensures |r| <= |xs|
  {
    if xs == [] then []
    else
      var last := xs[|xs| - 1];
      var r := Dedup(xs[..|xs| - 1]);
      assert xs == xs[..|xs| - 1] + [last];
      if last in r then r else r + [last]
  }

  /** Appending one element keeps it exactly when it is new. */
  lemma DedupSnoc<T(!new)>(xs: seq<T>, x: T)
    ensures Dedup(xs + [x]) == if x in xs then Dedup(xs) else Dedup(xs) + [x]
  {
    assert (xs + [x])[..|xs|] == xs;
  }

  /** The kept elements appear in the order of their first occurrences in `xs`. */
  lemma {:induction false} DedupFirstOrder<T(!new)>(xs: seq<T>)
    ensures forall i, j :: 0 <= i < j < |Dedup(xs)| ==>
      FirstIndex(xs, Dedup(xs)[i]) < FirstIndex(xs, Dedup(xs)[j])
  {
    if xs != [] {
      var init := xs[..|xs| - 1];
      var last := xs[|xs| - 1];
      DedupFirstOrder(init);
      assert xs == init + [last];
      var r := Dedup(init);
      forall y | y in init ensures FirstIndex(xs, y) == FirstIndex(init, y) {
        FirstIndexPrefix(init, [last], y);
      }
      if last !in r {
        assert last !in init;
        var n := |init|;
        assert FirstIndex(xs, last) == n by {
          assert xs[..n] == init;
        }
        forall i | 0 <= i < |r| ensures FirstIndex(xs, r[i]) < n {
          assert r[i] in init;
        }
      }
    }
  }

  lemma {:induction false} FirstIndexPrefix<T>(a: seq<T>, b: seq<T>, x: T)
    requires x in a
    ensures FirstIndex(a + b, x) == FirstIndex(a, x)
  {
    var i := FirstIndex(a, x);
    var j := FirstIndex(a + b, x);
    assert (a + b)[..i] == a[..i];
    assert (a + b)[i] == x;
    assert forall k :: 0 <= k < i ==> a[k] == a[..i][k];
  }

  /** Removing duplicates from a sequence that has none leaves it unchanged. */
  lemma {:induction false} DedupOfDistinct<T(!new)>(xs: seq<T>)
    requires NoDups(xs)
    ensures Dedup(xs) == xs
  {
    if xs != [] {
      var init := xs[..|xs| - 1];
      DedupOfDistinct(init);
      assert xs[|xs| - 1] !in init;
      assert xs == init + [xs[|xs| - 1]];
    }
  }

  /** A duplicate-free sequence has as many elements as the set of its elements. */
  lemma {:induction false} DistinctCard<T>(xs: seq<T>)
    requires NoDups(xs)
    ensures |set x | x in xs| == |xs|
  {
    if xs != [] {
      var tail := xs[1..];
      DistinctCard(tail);
      assert (set x | x in xs) == {xs[0]} + (set x | x in tail);
      assert xs[0] !in tail;
    }
  }
}

=== FILE: snippets.dfy ===
/** The snippet store (`SQLStore`) and the query object it holds (`SQLQuery`), as
    immutable values. The store is its keys in insertion order plus the map from key
    to query; every operation that would mutate the Python object returns the new store. */
module Snippets {
  import opened Outcomes
  import opened Errors
  import Seqs

  /** `SQLQuery`: a raw SQL body and the names of the snippets it declares it uses.
      The back-reference to the owning store is not kept: rendering takes the store
      as an argument. */
  datatype Query = Query(body: string, with_: seq<string>)

  /** `SQLStore`: the dictionary `_data`, as its keys in iteration order and its map. */
  datatype Store = Store(keys: seq<string>, data: map<string, Query>)

  /** The keys are iterated exactly once each, and are exactly the map's keys. */
  ghost predicate Valid(s: Store) {
    Seqs.NoDups(s.keys) && forall k :: k in s.data <==> k in s.keys
  }

  /** `SQLStore()`: a fresh, empty store. */
  function Empty(): (s: Store)
    ensures Valid(s) && |s.data| == 0 && s.keys == []
  {
    Store([], map[])
  }

  /** How a lookup in `s` can fail: the store is empty, or the key is absent and the
      error lists the stored keys in order. */
  predicate IsLookupFailure(s: Store, e: Error) {
    match e
    case NoSavedSql => |s.data| == 0
    case UnknownIdentifier(key, valid) => |s.data| > 0 && key !in s.data && valid == s.keys
    case _ => false
  }

  /** `store[key]`. */
  function Get(s: Store, key: string): (r: Result<Query, Error>)
    ensures r.Success? <==> key in s.data
    ensures r.Success? ==> r.value == s.data[key]
    ensures r.Failure? ==> IsLookupFailure(s, r.error)
    ensures r.Failure? && |s.data| > 0 ==> r.error.key == key
  {
    if |s.data| == 0 then Failure(NoSavedSql)
    else if key !in s.data then Failure(UnknownIdentifier(key, s.keys))
    else Success(s.data[key])
  }

  /** `store[key] = q`: an existing key keeps its position, a new key goes last. */
  function Set(s: Store, key: string, q: Query): (r: Store)
    ensures r.data == s.data[key := q]
    ensures key in s.keys ==> r.keys == s.keys
    ensures key !in s.keys ==> r.keys == s.keys + [key]
    ensures Valid(s) ==> Valid(r)
  {
    if key in s.keys then Store(s.keys, s.data[key := q])
    else Store(s.keys + [key], s.data[key := q])
  }

  /** The keys other than `key`, in their order. */
  function Remove(keys: seq<string>, key: string): (r: seq<string>)
    ensures forall k :: k in r <==> k in keys && k != key
    ensures Seqs.NoDups(keys) ==> Seqs.NoDups(r)
  {
    if keys == [] then []
    else
      var rest := Remove(keys[1..], key);
      assert Seqs.NoDups(keys) ==> Seqs.NoDups(keys[1..]) && keys[0] !in keys[1..];
      if keys[0] == key then rest else [keys[0]] + rest
  }

  /** `del store[key]`: fails with a `KeyError` when the key is absent. */
  function Delete(s: Store, key: string): (r: Result<Store, Error>)
    ensures r.Success? <==> key in s.data
    ensures r.Failure? ==> r.error == MissingKey(key)
    ensures r.Success? ==> r.value.data.Keys == s.data.Keys - {key}
    ensures r.Success? ==> forall k :: k in r.value.data ==> r.value.data[k] == s.data[k]
    ensures r.Success? && Valid(s) ==> Valid(r.value)
  {
    if key !in s.data then Failure(MissingKey(key))
    else Success(Store(Remove(s.keys, key), s.data - {key}))
  }

  /** `iter(store)`: every stored name exactly once, in insertion order. */
  function Keys(s: Store): (r: seq<string>)
    ensures Valid(s) ==> Seqs.NoDups(r) && forall k :: k in r <==> k in s.data
  {
    s.keys
  }

  /** `len(store)`: the size of the map. */
  function Len(s: Store): nat {
    |s.data|
  }

  /** The size of a store is the number of names iteration yields. */
  lemma LenCountsKeys(s: Store)
    requires Valid(s)
    ensures Len(s) == |Keys(s)|
  {
    Seqs.DistinctCard(s.keys);
    assert s.data.Keys == set k | k in s.keys;
  }

  /** No dependency name contains a hyphen. */
  predicate HyphenFree(with_: seq<string>) {
    forall w :: w in with_ ==> '-' !in w
  }

  /** `SQLQuery(store, query, with_)`: rejects a hyphenated dependency name, with a message
      proposing the underscored list. A missing `with_` is the empty list. */
  function NewQuery(body: string, with_: seq<string>): (r: Result<Query, Error>)
    ensures r.Success? <==> HyphenFree(with_)
    ensures r.Success? ==> r.value.body == body && r.value.with_ == with_
    ensures r.Failure? ==> r.error == HyphenInWith(with_)
  {
    if HyphenFree(with_) then Success(Query(body, with_)) else Failure(HyphenInWith(with_))
  }

  /** `store.store(key, query, with_)`: checks the name, then self-dependency, then builds
      the query (which checks the dependency names), and only then stores it. */
  function StoreSnippet(s: Store, key: string, body: string, with_: seq<string>): (r: Result<Store, Error>)
    ensures '-' in key ==> r == Failure(HyphenInKey)
    ensures '-' !in key && key in with_ ==> r == Failure(SelfDependency(key))
    ensures '-' !in key && key !in with_ && !HyphenFree(with_) ==> r == Failure(HyphenInWith(with_))
    ensures r.Success? <==> '-' !in key && key !in with_ && HyphenFree(with_)
    ensures r.Success? ==> Get(r.value, key) == Success(Query(body, with_))
    ensures r.Success? ==> forall k :: k != key ==> Get(r.value, k).Success? == (k in s.data)
    ensures r.Success? ==> forall k :: k != key && k in s.data ==> k in r.value.data && r.value.data[k] == s.data[k]
    ensures r.Success? && key in s.keys ==> r.value.keys == s.keys
    ensures r.Success? && key !in s.keys ==> r.value.keys == s.keys + [key]
    ensures r.Success? && Valid(s) ==> Valid(r.value)
  {
    if '-' in key then Failure(HyphenInKey)
    else if |with_| > 0 && key in with_ then Failure(SelfDependency(key))
    else
      match NewQuery(body, with_)
      case Failure(e) => Failure(e)
      case Success(q) => Success(Set(s, key, q))
  }

  /** `store.render(query, with_)`: a query over this store that is not inserted into it.
      Only the query is returned; the store is not part of the result, so rendering cannot
      change it. */
  function Render(s: Store, body: string, with_: seq<string>): (r: Result<Query, Error>)
    ensures r.Success? <==> HyphenFree(with_)
    ensures r.Success? ==> r.value == Query(body, with_)
    ensures r.Failure? ==> r.error == HyphenInWith(with_)
  {
    NewQuery(body, with_)
  }

  /** The extracted table names that are stored keys other than `key`, in extraction
      order and with repeats. */
  function OtherKeysIn(tables: seq<string>, keys: seq<string>, key: string): (r: seq<string>)
    ensures forall t :: t in r <==> t in tables && t in keys && t != key
    ensures |r| <= |tables|
  {
    if tables == [] then []
    else
      var rest := OtherKeysIn(tables[1..], keys, key);
      if tables[0] in keys && tables[0] != key then [tables[0]] + rest else rest
  }

  lemma {:induction false} OtherKeysInConcat(a: seq<string>, b: seq<string>, keys: seq<string>, key: string)
    ensures OtherKeysIn(a + b, keys, key) == OtherKeysIn(a, keys, key) + OtherKeysIn(b, keys, key)
  {
    if a != [] {
      assert (a + b)[1..] == a[1..] + b;
      OtherKeysInConcat(a[1..], b, keys, key);
    } else {
      assert a + b == b;
    }
  }

  /** One more extracted table: it is kept exactly when it is another stored key. */
  lemma OtherKeysInStep(tables: seq<string>, i: nat, keys: seq<string>, key: string)
    requires i < |tables|
    ensures OtherKeysIn(tables[..i + 1], keys, key)
      == OtherKeysIn(tables[..i], keys, key) + (if tables[i] in keys && tables[i] != key then [tables[i]] else [])
  {
    OtherKeysInConcat(tables[..i], [tables[i]], keys, key);
    assert tables[..i + 1] == tables[..i] + [tables[i]];
  }

  lemma {:induction false} NoOtherKeys(tables: seq<string>, keys: seq<string>, key: string)
    requires Remove(keys, key) == []
    ensures OtherKeysIn(tables, keys, key) == []
  {
    if tables != [] {
      NoOtherKeys(tables[1..], keys, key);
    }
  }

  /** `store.infer_dependencies(query, key)`, where `tables` is what the SQL parser
      extracts from `query`: the tables that name another stored snippet, in the order
      the parser reports them, repeats kept; nothing for an empty query. */
  method InferDependencies(s: Store, query: string, key: string, tables: seq<string>) returns (deps: seq<string>)
    ensures |query| == 0 ==> deps == []
    ensures |query| > 0 ==> deps == OtherKeysIn(tables, s.keys, key)
    ensures forall t :: t in deps <==> |query| > 0 && t in tables && t in s.keys && t != key
  {
    deps := [];
    var savedKeys := Remove(s.keys, key);
    if |savedKeys| > 0 && |query| > 0 {
      var i := 0;
      while i < |tables|
        invariant 0 <= i <= |tables|
        invariant deps == OtherKeysIn(tables[..i], s.keys, key)
      {
        OtherKeysInStep(tables, i, s.keys, key);
        if tables[i] in savedKeys {
          deps := deps + [tables[i]];
        }
        i := i + 1;
      }
      assert tables[..|tables|] == tables;
    } else if |query| > 0 {
      NoOtherKeys(tables, s.keys, key);
    }
  }
}

=== FILE: store_lemmas.dfy ===
/** How the store's mapping operations relate to one another: what a lookup sees after
    an assignment, and deletion undoing the insertion of a new name. */
module StoreLemmas {
  import opened Outcomes
  import opened Seqs
  import opened Snippets

  /** After `store[key] = q`, looking `key` up yields `q` and every other stored name
      still yields its old query. */
  lemma SetThenGet(s: Store, key: string, q: Query)
    ensures Get(Set(s, key, q), key) == Success(q)
    ensures forall k :: k != key && k in s.data ==> Get(Set(s, key, q), k) == Success(s.data[k])
  {
  }

  lemma {:induction false} RemoveAbsent(keys: seq<string>, key: string)
    requires key !in keys
    ensures Remove(keys, key) == keys
  {
    if keys != [] {
      RemoveAbsent(keys[1..], key);
    }
  }

  lemma {:induction false} RemoveConcat(a: seq<string>, b: seq<string>, key: string)
    ensures Remove(a + b, key) == Remove(a, key) + Remove(b, key)
  {
    if a == [] {
      assert a + b == b;
    } else {
      assert (a + b)[1..] == a[1..] + b;
      RemoveConcat(a[1..], b, key);
    }
  }

  lemma RemoveMiddle(a: seq<string>, key: string, b: seq<string>)
    requires key !in a && key !in b
    ensures Remove(a + [key] + b, key) == a + b
  {
    var none: seq<string> := [];
    assert Remove([key], key) == none by {
      assert [key][1..] == none;
    }
    RemoveAbsent(a, key);
    RemoveAbsent(b, key);
    calc {
      Remove(a + [key] + b, key);
      { RemoveConcat(a + [key], b, key); }
      Remove(a + [key], key) + Remove(b, key);
      { RemoveConcat(a, [key], key); }
      Remove(a, key) + Remove([key], key) + Remove(b, key);
      a + none + b;
      { assert a + none == a; }
      a + b;
    }
  }

  /** Inserting a new name and deleting it again gives back the original store, order
      included. */
  lemma DeleteUndoesInsert(s: Store, key: string, q: Query)
    requires Valid(s) && key !in s.data
    ensures Delete(Set(s, key, q), key) == Success(s)
  {
    assert key !in s.keys;
    InsertThenRemove(s, key, q);
  }

  lemma InsertThenRemove(s: Store, key: string, q: Query)
    requires key !in s.keys && key !in s.data
    ensures Delete(Set(s, key, q), key) == Success(s)
  {
    var t := Set(s, key, q);
    var none: seq<string> := [];
    RemoveMiddle(s.keys, key, none);
    assert t.keys == s.keys + [key] + none;
    assert s.keys + none == s.keys;
    assert t.data - {key} == s.data;
  }

  /** Deleting the `i`-th name removes exactly that position and keeps the others in order. */
  lemma DeleteKeepsOrder(s: Store, i: nat)
    requires Valid(s) && i < |s.keys|
    ensures Delete(s, s.keys[i]).Success?
    ensures Delete(s, s.keys[i]).value.keys == s.keys[..i] + s.keys[i + 1..]
  {
    var key := s.keys[i];
    var a, b := s.keys[..i], s.keys[i + 1..];
    assert s.keys == a + [key] + b;
    forall j | 0 <= j < |a| ensures a[j] != key {
      assert a[j] == s.keys[j];
    }
    forall j | 0 <= j < |b| ensures b[j] != key {
      assert b[j] == s.keys[i + 1 + j];
    }
    RemoveMiddle(a, key, b);
  }
}

=== FILE: text.dfy ===
/** String helpers with Python's meaning: whitespace as `str.isspace`, `rstrip`, `strip`,
    `sep.join` and single-character `replace`. */
module Text {

  /** The characters Python's `str.isspace()` accepts, which are exactly the ones
      `str.strip()` and `str.rstrip()` remove when called without arguments. */
  predicate IsSpace(c: char) {
    || ('\t' <= c <= '\r')
    || ('\U{1c}' <= c <= '\U{1f}')
    || c == ' '
    || c == '\U{85}'
    || c == '\U{a0}'
    || c == '\U{1680}'
    || ('\U{2000}' <= c <= '\U{200a}')
    || c == '\U{2028}'
    || c == '\U{2029}'
    || c == '\U{202f}'
    || c == '\U{205f}'
    || c == '\U{3000}'
  }

  /** Every character is whitespace (true of the empty string). */
  predicate AllSpace(x: string) {
    forall i :: 0 <= i < |x| ==> IsSpace(x[i])
  }

  /** `x.rstrip()`: the longest prefix of `x` that does not end in whitespace. */
  function RStrip(x: string): (r: string)
    ensures |r| <= |x| && r == x[..|r|]
    ensures AllSpace(x[|r|..])
    ensures r == [] || !IsSpace(r[|r| - 1])
    ensures r == [] <==> AllSpace(x)
  {
    if x == [] || !IsSpace(x[|x| - 1]) then x
    else
      var init := x[..|x| - 1];
      var r := RStrip(init);
      assert x[..|r|] == init[..|r|];
      assert x[|r|..] == init[|r|..] + [x[|x| - 1]];
      assert AllSpace(x) <==> AllSpace(init) by {
        assert x == init + [x[|x| - 1]];
      }
      r
  }

  /** `x.lstrip()`: the longest suffix of `x` that does not start with whitespace. */
  function LStrip(x: string): (r: string)
    ensures |r| <= |x| && r == x[|x| - |r|..]
    ensures AllSpace(x[..|x| - |r|])
    ensures r == [] || !IsSpace(r[0])
  {
    if x == [] || !IsSpace(x[0]) then x
    else
      var r := LStrip(x[1..]);
      assert x[..|x| - |r|] == [x[0]] + x[1..][..|x[1..]| - |r|];
      r
  }

  /** `x.strip()`: `x` without its leading and trailing whitespace. */
  function Strip(x: string): string {
    LStrip(RStrip(x))
  }

  /** Stripping leaves nothing exactly when the text is blank. */
  lemma StripBlank(x: string)
    ensures Strip(x) == [] <==> AllSpace(x)
  {
    var t := RStrip(x);
    if Strip(x) == [] {
      assert t[..|t|] == t;
    }
  }

  /** What stripping keeps neither starts nor ends with whitespace. */
  lemma StripEnds(x: string)
    ensures var r := Strip(x); r == [] || (!IsSpace(r[0]) && !IsSpace(r[|r| - 1]))
  {
    var t := RStrip(x);
    var r := LStrip(t);
    if r != [] {
      assert r[|r| - 1] == t[|t| - 1];
    }
  }

  /** Stripping keeps a contiguous piece of the text and drops only whitespace around it. */
  lemma StripSlice(x: string)
    ensures var r := Strip(x);
      exists i :: 0 <= i <= |x| - |r| && r == x[i..i + |r|] && AllSpace(x[..i]) && AllSpace(x[i + |r|..])
  {
    var t := RStrip(x);
    var i := |t| - |Strip(x)|;
    StripKept(x);
    StripLeading(x);
    assert i + |Strip(x)| == |t|;
  }

  lemma StripKept(x: string)
    ensures var t := RStrip(x); var r := Strip(x); r == x[|t| - |r|..|t|]
  {
    var t := RStrip(x);
    var r := LStrip(t);
    var i := |t| - |r|;
    forall k | 0 <= k < |r| ensures r[k] == x[i..|t|][k] {
      assert r[k] == t[i..][k] == t[i + k];
      assert t[i + k] == x[..|t|][i + k] == x[i + k];
    }
  }

  lemma StripLeading(x: string)
    ensures var t := RStrip(x); AllSpace(x[..|t| - |Strip(x)|])
  {
    var t := RStrip(x);
    var i := |t| - |LStrip(t)|;
    forall k | 0 <= k < i ensures IsSpace(x[..i][k]) {
      assert x[..i][k] == t[..i][k];
    }
  }

  /** `sep.join(xs)`. */
  function Join(sep: string, xs: seq<string>): string {
    if |xs| == 0 then ""
    else if |xs| == 1 then xs[0]
    else xs[0] + sep + Join(sep, xs[1..])
  }

  /** `x.replace(from, to)` for single characters. */
  function ReplaceChar(x: string, from: char, to: char): (r: string)
    ensures |r| == |x|
    ensures forall i :: 0 <= i < |x| ==> r[i] == (if x[i] == from then to else x[i])
    ensures from != to ==> from !in r
  {
    if x == [] then []
    else [if x[0] == from then to else x[0]] + ReplaceChar(x[1..], from, to)
  }
}
